=== FILE: README.md ===
# A Dafny model of the cron job scheduler core

The scheduler reads a YAML schedule: a map from job names to job specs.
Each spec has a cron string, a command, downstream `triggers` and a retry
count. The scheduler runs every job whose cron string is due. A job that
finishes cleanly starts the jobs it triggers. Every run is recorded as a
`JobRun`: status, captured log, trigger label and start time. The record is
appended to a per-job JSON-lines file, and the last runs are read back from
the end of that file. A finished run can be posted to a webhook, either as
the run itself or as a Slack text message.

The repository holds two generations of the same program. The model keeps
them apart:

- `pkg/job.go`, `pkg/schedule.go`, `pkg/utils.go` and `pkg/webhook.go` are
  the packaged scheduler. They are modelled in modules `Job`, `Schedule`,
  `Utils` and `Webhook`.
- `main.go` is the older single-file scheduler. There, jobs keep parallel
  lists of start times, statuses and log tails. It is modelled in module
  `Legacy`.
- `Process` abstracts a child process. `Text` holds the decimal rendering
  used in labels and Slack messages. `Wrappers` holds `Option` and `Result`.

Everything outside the program logic becomes a parameter:

- The process is a `Process.Outcome`: it failed to start, or it ran, wrote
  some stdout and stderr text, and `Wait` ended in one of three ways.
- Cron validity and due-ness are the oracles `isValid` and `isDue`.
- Go's unspecified map iteration order is a parameter `order` that lists
  every key once.
- JSON encoding and decoding and the HTTP round trip are function
  parameters.
- A file is a byte sequence, or `None` when it cannot be opened.
- The clock reading is a `Time` argument.
- Writing a run to disk is a `persisted` flag.
- The goroutines that start downstream jobs become a list of `Launch`
  records.

Some behaviour of the code is worth stating up front:

- A job started by a successful run gets the label `job[<name>]`, where
  `<name>` is the name of the triggered job, not of the parent.
- A scalar `command` becomes a one-element list. It is not split into
  words.
- `loadSchedule` in `pkg/schedule.go` drops validation errors. See
  Findings.
- `pkg/webhook.go` dereferences `JobRun.Status` as a pointer, while
  `pkg/job.go` declares it an `int`. The webhook is therefore modelled over
  its own record `Webhook.HookRun`, whose status is an `Option<int>`.

## Model

| member | source | states |
|---|---|---|
| Job.ExecCommand | pkg/job.go:87-155 | A run carries the job's name, the trigger label and the start time. Its status is 0 exactly when there is a command and the process exits cleanly. It is the exit code exactly when `Wait` returns an exit error. Otherwise it stays -1. An empty command spawns nothing and logs "Job unable to start: no command specified". A start failure logs "Job unable to start: " plus the reason. A process that ran logs the captured output. The run is persisted unless waiting for the process failed. Downstream launches happen only on status 0, one per trigger, in order. |
| Job.DownstreamLaunches | pkg/job.go:145-150 | One launch per trigger entry, in order. Each starts the named job under the label `job[<that name>]`. |
| Job.NoCommandNeverSucceeds | pkg/schedule_test.go:42-51 | A job without a command never ends with status 0, whatever the process would have done. It is still persisted. |
| Job.AttemptLabel | pkg/job.go:70-75 | Attempt 0 uses the trigger label unchanged. Attempt k > 0 is the trigger followed by `[retry=`, then k in decimal digits without leading zeros (which read back as k), then `]`. |
| Job.AttemptLabelsDistinct | pkg/job.go:70-75 | Two different attempt numbers always give different labels. |
| Job.AttemptLimitIsWrappedSum | pkg/job.go:68 | The loop bound equals `Retries+1` computed in 64-bit two's complement. It wraps to the most negative value when `Retries` is the largest `int`. |
| Job.RetryLoop | pkg/job.go:64-84 | No more attempts than the limit, and none when the limit is not positive. Attempt i is the i-th run. Every attempt before the last has a non-zero status. Stopping before the limit means the last attempt succeeded. Every failed attempt is followed by the 5-second back-off, including the last one. |
| Job.ExecCommandWithRetry | pkg/job.go:63-85 | At most `Retries+1` attempts (with wrap-around). Attempt i runs `execCommand` under its attempt label in environment i. The loop stops at the first status 0. Every failed attempt is followed by the back-off. |
| Process.FirstNewline | pkg/job.go:125 | Finds the first newline, or reports that there is none. |
| Process.CompleteLines | pkg/job.go:123-133 | The lines `ReadString('\n')` delivers without error over stdout followed by stderr. Each ends with its single newline. Together they form a prefix of the stream. The rest of the stream has no newline. |
| Process.CapturedLogIsTerminatedPrefix | pkg/job.go:123-133 | The captured log is a prefix of stdout followed by stderr. It is empty or ends in a newline. The dropped tail holds no newline. |
| Schedule.DecodeCommand | pkg/schedule.go:107-121 | A list of strings is kept element for element. A scalar becomes a one-element list. Any other node is an error. |
| Schedule.CommandNode | pkg/schedule.go:108-109 | The YAML list a command is written as holds one string scalar per element. |
| Schedule.DecodeCommandRoundTrip | pkg/schedule.go:107-121 | Writing a command as a YAML list and decoding it gives the command back. |
| Schedule.FirstUnknown | pkg/schedule.go:152-156 | Reports no trigger exactly when every trigger names a job. A reported trigger is one of the job's triggers and names no job. Every trigger before it names a job, so it is the first dangling one. |
| Schedule.CheckJob | pkg/schedule.go:144-156 | A job passes exactly when its cron string is empty or valid and every trigger names a job. A reported error names that job, and the failing cron string or the dangling trigger. An invalid non-empty cron string is always the error reported, before any trigger is looked at. A reported dangling trigger is the first one. |
| Schedule.ValidateLoopSpec | pkg/schedule.go:143-161 | The validation loop keeps the key set. It changes a job only by setting its name and back-reference. It fails exactly when some visited job fails its checks, and the error it reports is true of the original jobs. On success every visited job is named after its key. |
| Schedule.Validate | pkg/schedule.go:142-163 | Validation fails exactly when some job has a non-empty cron string the oracle rejects, or a trigger that is not a key. An empty cron string is never checked. The reported error is true. On success every job's name equals its key and the job is linked. |
| Schedule.ValidateOrderIndependent | pkg/schedule.go:143 | Whether validation fails does not depend on the map iteration order. On success the resulting schedule does not depend on it either. |
| Schedule.LoadSchedule | pkg/schedule.go:165-177 | A read error comes back with an empty schedule. Otherwise the error is always nil. A schedule that fails validation loads as the empty schedule. One that passes loads with every job named after its key. |
| Schedule.DanglingTriggerLoadsSilently | pkg/schedule.go:171-174 | A schedule with a dangling trigger fails validation, yet loads exactly like a file without jobs: empty and without error. |
| Schedule.LoadScheduleChecked | pkg/schedule.go:165-177 | Corrected loader: it loads without error exactly when the file was read and every job validates. A reported validation error describes a job that really fails. |
| Schedule.LoadSchedulesAgree | pkg/schedule.go:171-176 | The loader as written and the corrected loader give the same schedule. Their errors differ exactly when validation fails. |
| Schedule.LaunchesResolve | pkg/job.go:145-146 | After successful validation, every job a successful run launches is a key of the schedule, so the `Jobs[tn]` lookup never yields nil. |
| Schedule.LoadedLaunchesResolve | pkg/job.go:145-146 | In a schedule the corrected loader accepts, every job a successful run launches is a job of that schedule. |
| Schedule.Tick | pkg/schedule.go:30-48 | One tick launches a job, with trigger "cron", exactly when its cron string is non-empty and due. Nothing else is launched and no job is launched twice. |
| Legacy.FirstError | main.go:101-116 | Reports no error exactly when every pending job passes the checks. A reported error names a job with an invalid non-empty cron string or a dangling trigger. |
| Legacy.LoadSchedule | main.go:94-123 | A read error is reported as such. Otherwise the load fails exactly when some job fails validation, and then it returns the empty schedule. The reported error names a job that really fails: one with an invalid non-empty cron string, or one with a trigger that names no job. On success the key set is unchanged and every job is named after its key and linked. |
| Legacy.DoubledLinesLength | main.go:151-157 | The tail holds each captured line followed by one extra newline. It is as long as the captured log plus one byte per line, and a non-empty tail ends in a blank line. |
| Legacy.DoubledLinesContents | main.go:155 | The tail is the concatenation of the captured lines, each followed by one extra newline. |
| Legacy.LegacyTailExtendsLog | main.go:148-157 | The legacy log tail holds the same lines as the log `pkg/job.go` captures, in the same order, each followed by one extra newline. It is one byte per line longer. |
| Legacy.ExecCommand | main.go:125-178 | Each call appends exactly one start time and one tail, and at most one status. A start failure records -1 and the error text. A clean exit records 0 and launches every trigger. An exit code is recorded as is. Any other wait error records no status. Nothing is launched unless the exit was clean. |
| Utils.WalkBackwards | pkg/utils.go:40-77 | An empty file gives a seek error and no lines. Otherwise the pieces are read newest first and the limit is respected when positive. Joined oldest first, they form a suffix of the file, and the whole file unless the limit stopped the walk early at a separator. Bytes 10 and 13 both end a piece, except the file's last byte. |
| Utils.ReadLastLines | pkg/utils.go:33-78 | A file that cannot be opened, or an empty one, gives an error and no lines. Otherwise the result has the properties stated for `Utils.WalkBackwards`. |
| Utils.NewestPieceEndsFile | pkg/utils.go:45-73 | The first element returned is the file's final line. It ends at the last byte of the file. It has no separator before its own last byte. It is the whole file or begins right after a separator. |
| Utils.DecodeRuns | pkg/utils.go:18-28 | Yields no more runs than lines. Every run is the decoding of some line. |
| Utils.DecodeRunsAppend | pkg/utils.go:19-28 | Decoding keeps line order: it distributes over concatenation of the lines. |
| Utils.DecodeRunsTotal | pkg/utils.go:19-28 | When every line decodes, run i is the decoding of line i. |
| Utils.ReadLastJobRuns | pkg/utils.go:12-31 | Never returns an error. A missing or empty file gives no runs. Otherwise the runs are the decodings, in order, of the lines read back from the end of the file. Those lines satisfy everything `Utils.ReadLastLines` promises: no more than the limit, and the whole file unless the limit was reached. |
| Utils.LoadRuns | pkg/job.go:38-46 | Replaces only the job's run history, with what `readLastJobRuns` returns for a limit of 30. That is no runs for a missing or empty file, and otherwise the decodings of the last lines of the file. |
| Utils.HardWrap | pkg/utils.go:80-94 | A width below 1 returns the input unchanged. Otherwise the result is the chunked wrapping, and removing the inserted newlines restores the input. |
| Utils.UnwrapWrap | pkg/utils.go:85-93 | Removing the newlines inserted by wrapping gives back the input. |
| Utils.WrapLength | pkg/utils.go:88-91 | Wrapping never shortens the input. It adds bytes exactly when the input is longer than the width. |
| Utils.ChunksShape | pkg/utils.go:88-91 | The chunks cover the input in order. Every chunk but the last is exactly `width` bytes, and the last is at most `width`. |
| Utils.WrapJoinsChunks | pkg/utils.go:85-93 | The wrapped text is the chunks joined by exactly one line feed each. |
| Webhook.SlackTextRecoversStatus | pkg/webhook.go:20 | The Slack text starts with the job name and ends with the log. The exit code sits between them and reads back as the run's status. |
| Webhook.RenderPayload | pkg/webhook.go:18-31 | The "slack" type gets a single text payload. It reads back field by field as the name, " (exitcode ", the status written in decimal (which reads back as the status), "):" with a newline, and the log. Every other type gets the run itself. |
| Webhook.WebhookCall | pkg/webhook.go:15-45 | Any failure of encoding, POST or body read gives an empty body with that step's own error: the encoder's, the POST's or the body read's. Success gives exactly the response body and no error. |
| Text.NatToString | pkg/job.go:74 | Renders a number as a non-empty string of decimal digits without leading zeros. |
| Text.ParseIntToString | pkg/webhook.go:20 | The decimal rendering of an integer, as `%v` prints it, reads back as that integer. |
| Text.ParseNatToString | pkg/job.go:74 | The decimal rendering of a natural number reads back as that number. |
| Text.NatToStringInjective | pkg/job.go:74 | Different retry numbers render differently. |

## Left out

- Spawning processes, pipes, goroutines, `time.Sleep` and the ticker. The process is an abstract outcome, launches are recorded rather than run, and the back-off is recorded as a number of seconds.
- The cron library (`gronx`). Validity and due-ness are oracles. An `IsDue` error counts as "not due".
- YAML and JSON parsing and encoding, and the HTTP POST. These are parameters. A `command` given as YAML null, or missing, is not modelled.
- A job written as YAML null (`jobs: {a: }`) becomes a nil `*JobSpec`. `Validate` (pkg/schedule.go:145) and main.go's `LoadSchedule` (main.go:103) dereference it and panic. Jobs are values in the model's maps, so this panic is not modelled.
- A successful run of a job that never went through validation, and that has triggers, dereferences a nil `globalSchedule` (pkg/job.go:146) and panics. `Job.ExecCommand` records the launches regardless, and `Schedule.LaunchesResolve` covers only validated schedules.
- Console output under `suppressLogs` and all zerolog logging. These have no effect on the results.
- File I/O in `logToDisk`, `loadRuns`, `CheekPath` and `buttPath`. Persisting is a flag; a file is a byte sequence.
- `main.go`'s `StringArray.UnmarshalYAML` is textually the same as `stringArray.UnmarshalYAML` of `pkg/schedule.go` and is covered by `Schedule.DecodeCommand`. `main.go`'s `Schedule.Run` selects jobs exactly as `Schedule.Tick` does, but launches one `ExecCommand("cron")` per due job instead of `execCommandWithRetry`. Its tick over a `Legacy.LegacySchedule` is not modelled separately. The `execCommand` and `execCommandWithRetry` copies in `pkg/schedule.go:179-272` are modelled once, from `pkg/job.go`.
- `pkg/db.go`, `pkg/http.go`, `pkg/tui.go`, `pkg/tui_notification.go`, `pkg/telemetry.go`, `pkg/hex.go`, `pkg/log.go`, `cmd/`, web assets and `RunSchedule` start-up. These are storage, UI, network and CLI code, not part of this model.
- Behaviour found only in `pkg/job_test.go`: context cancellation, `OnEvent` hooks, retries-exhausted, environment and working directory. No source text for it is shown.
- Legacy.ExecCommand: requires a non-empty command, because the source indexes `Command[0]` unconditionally and panics otherwise.
- Legacy.ExecCommand: on a start failure the source goes on to read the closed pipes and call `Wait`. The model assumes the pipes are closed and `Wait` reports "not started", so exactly one status (-1) is recorded.
- Job.ExecCommand: the clock value is an argument, and the `Triggered` field is left empty as the source leaves it.
- Utils.ReadLastLines: the 64-bit seek offset is unbounded, and `Read` errors other than seeking before the start are not modelled.
- Utils.ReadLastJobRuns: the JSON decoder is an abstract parameter, so "decoded" means only that it accepted the line.
- Webhook.WebhookCall: the encoder and the POST are parameters, so the JSON layout of the bodies is not stated.
- Webhook.RenderPayload: the "slack" branch requires a status, because `pkg/webhook.go:20` dereferences `*jr.Status` and panics on a nil status.
- Webhook.WebhookCall: requires a status for the "slack" type for the same reason. The panic on a nil status is not modelled.

## Findings

| source | as written | input that shows it | evidently intended | confidence | as-written member | corrected member |
|---|---|---|---|---|---|---|
| pkg/schedule.go:172-174 | `loadSchedule` returns `Schedule{}, nil` when `Validate` fails, dropping the error | a schedule whose only job `a` triggers a missing job `b` loads as an empty schedule with a nil error, exactly like an empty file | return the validation error, as `LoadSchedule` in `main.go` does and as a fatal configuration error requires | medium, not executed | Schedule.DanglingTriggerLoadsSilently | Schedule.LoadScheduleChecked |

=== FILE: job.dfy ===
/** One job of `pkg/job.go`: its definition, the record of one execution, the
    single-attempt function `execCommand` and the bounded retry loop
    `execCommandWithRetry`. The process is an abstract `Process.Outcome`;
    writing the run to disk (`logToDisk`) is recorded as a `persisted` flag and
    the goroutines that start downstream jobs as a list of `Launch`es. */
module Job {
  import opened Text
  import opened Process

  /** A timestamp taken from the scheduler's clock (`time.Now()`). */
  type Time = int

  const Int64Min: int := -0x8000_0000_0000_0000
  const Int64Max: int := 0x7fff_ffff_ffff_ffff

  /** Go's `int` on a 64-bit platform. */
  type Int64 = x: int | Int64Min <= x <= Int64Max

  /** One execution of a job (`JobRun`). `triggered` is declared by the
      source but never filled in by the code modelled here. */
  datatype JobRun = JobRun(
    status: int,
    log: string,
    name: string,
    triggeredAt: Time,
    triggeredBy: string,
    triggered: seq<string>)

  /** A job definition (`JobSpec`). `linked` stands for the `globalSchedule`
      back-reference being set; `runs` is the in-memory history. */
  datatype JobSpec = JobSpec(
    cron: string,
    command: seq<string>,
    triggers: seq<string>,
    name: string,
    retries: Int64,
    linked: bool,
    runs: seq<JobRun>)

  /** A goroutine started to run job `job` under trigger label `trigger`. */
  datatype Launch = Launch(job: string, trigger: string)

  /** What one call of `execCommand` leaves behind. */
  datatype ExecResult = ExecResult(run: JobRun, persisted: bool, launched: seq<Launch>)

  /** Status a run carries until execution says otherwise. */
  const StatusUnset: int := -1

  const NoCommandLog: string := "Job unable to start: no command specified"

  /** Seconds slept after an unsuccessful attempt. */
  const RetryBackoff: nat := 5

  function StartFailureLog(reason: string): string
  {
    "Job unable to start: " + reason
  }

  /** Trigger label of a job started by a successful run. */
  function DownstreamLabel(jobName: string): string
  {
    "job[" + jobName + "]"
  }

  /** One launch per entry of `triggers`, in order, each labelled with the
      name of the job it starts. */
  function DownstreamLaunches(triggers: seq<string>): (ls: seq<Launch>)
    ensures |ls| == |triggers|
    ensures forall i | 0 <= i < |ls| :: ls[i].job == triggers[i] && ls[i].trigger == DownstreamLabel(triggers[i])
  {
    seq(|triggers|, i requires 0 <= i < |triggers| => Launch(triggers[i], DownstreamLabel(triggers[i])))
  }

  /** `execCommand`: one attempt of job `j` under label `trigger`, started at
      `now`, whose process behaves as `outcome` (ignored when there is no
      command, since nothing is spawned then). */
  function ExecCommand(j: JobSpec, trigger: string, now: Time, outcome: Outcome): (r: ExecResult)
    // identity of the run
    ensures r.run.name == j.name && r.run.triggeredBy == trigger && r.run.triggeredAt == now
    ensures r.run.triggered == []
    // status: -1 unless the process exits cleanly (0) or with an exit code
    ensures r.run.status == 0 <==> 0 < |j.command| && outcome.Ran? && outcome.wait.WaitOk?
    ensures r.run.status != StatusUnset && r.run.status != 0
            <==> 0 < |j.command| && outcome.Ran? && outcome.wait.WaitExit? && outcome.wait.code != StatusUnset
    ensures 0 < |j.command| && outcome.Ran? && outcome.wait.WaitExit? ==> r.run.status == outcome.wait.code
    // an empty command spawns nothing
    ensures |j.command| == 0 ==> r.run.status == StatusUnset && r.run.log == NoCommandLog && r.launched == []
    ensures 0 < |j.command| && outcome.StartFailed? ==> r.run.log == StartFailureLog(outcome.reason)
    ensures 0 < |j.command| && outcome.Ran? ==> r.run.log == CapturedLog(outcome.stdout, outcome.stderr)
    // persisted unless the process ran and waiting for it failed
    ensures r.persisted <==> |j.command| == 0 || outcome.StartFailed? || outcome.wait.WaitOk?
    // fan-out on success only
    ensures r.launched != [] ==> r.run.status == 0
    ensures r.run.status == 0 ==> r.launched == DownstreamLaunches(j.triggers)
  {
    var jr := JobRun(StatusUnset, "", j.name, now, trigger, []);
    if |j.command| == 0 then
      ExecResult(jr.(log := NoCommandLog), true, [])
    else
      match outcome
      case StartFailed(reason) =>
        ExecResult(jr.(log := StartFailureLog(reason)), true, [])
      case Ran(stdout, stderr, wait) =>
        var captured := jr.(log := CapturedLog(stdout, stderr));
        match wait
        case WaitExit(code) => ExecResult(captured.(status := code), false, [])
        case WaitFailed(_) => ExecResult(captured, false, [])
        case WaitOk => ExecResult(captured.(status := 0), true, DownstreamLaunches(j.triggers))
  }

  /** A job without a command never reports success, whatever the process
      would have done. */
  lemma NoCommandNeverSucceeds(j: JobSpec, trigger: string, now: Time, outcome: Outcome)
    requires |j.command| == 0
    ensures ExecCommand(j, trigger, now, outcome).run.status != 0
    ensures ExecCommand(j, trigger, now, outcome).persisted
  {
  }

  /** Label of attempt `tries`: the trigger itself first, then
      `<trigger>[retry=<tries>]`. */
  function AttemptLabel(trigger: string, tries: nat): (tag: string)
    ensures tries == 0 ==> tag == trigger
    ensures tries > 0 ==>
      && |tag| > |trigger| + 8 && tag[..|trigger|] == trigger
      && tag[|trigger|..|trigger| + 7] == "[retry=" && tag[|tag| - 1] == ']'
      && var digits := tag[|trigger| + 7..|tag| - 1];
         && AllDigits(digits) && (|digits| > 1 ==> digits[0] != '0')
         && ParseNat(digits) == tries
  {
    if tries == 0 then trigger
    else
      var digits := NatToString(tries);
      var tag := trigger + "[retry=" + digits + "]";
      assert tag[|trigger| + 7..|tag| - 1] == digits;
      ParseNatToString(tries);
      tag
  }

  /** The retry number written into a label can be read back, so labels of
      different attempts of one sequence never coincide. */
  lemma AttemptLabelsDistinct(trigger: string, a: nat, b: nat)
    requires a != b
    ensures AttemptLabel(trigger, a) != AttemptLabel(trigger, b)
  {
  }

  /** `tries < j.Retries+1` compares against a 64-bit sum, which wraps
      around to the most negative `int` when `Retries` is the largest one. */
  function AttemptLimit(retries: Int64): Int64
  {
    if retries == Int64Max then Int64Min else retries + 1
  }

  /** The limit is exactly the two's-complement 64-bit sum `Retries + 1`. */
  lemma AttemptLimitIsWrappedSum(retries: Int64)
    ensures AttemptLimit(retries) == (retries + 1 - Int64Min) % 0x1_0000_0000_0000_0000 + Int64Min
  {
  }

  /** When attempt `i` starts and what its process does. */
  datatype AttemptEnv = AttemptEnv(at: Time, outcome: Outcome)

  /** Attempt number `i` of a retry sequence started under `trigger`. */
  function Attempt(j: JobSpec, trigger: string, env: nat -> AttemptEnv, i: nat): ExecResult
  {
    ExecCommand(j, AttemptLabel(trigger, i), env(i).at, env(i).outcome)
  }

  /** One attempt of the retry loop and the sleep that followed it (0 when
      the loop broke out without sleeping). */
  datatype AttemptRecord = AttemptRecord(result: ExecResult, backoff: nat)

  /** The loop of `execCommandWithRetry` with the attempt itself left as a
      parameter: `run(tries)` is attempt number `tries`. It keeps going while
      `tries < limit`, breaks out on the first zero status and sleeps after
      every other attempt. */
  method RetryLoop(limit: int, run: nat -> ExecResult) returns (attempts: seq<AttemptRecord>)
    ensures |attempts| <= if limit < 0 then 0 else limit
    ensures |attempts| == 0 <==> limit <= 0
    ensures forall i | 0 <= i < |attempts| :: attempts[i].result == run(i)
    ensures forall i | 0 <= i < |attempts| - 1 :: attempts[i].result.run.status != 0
    ensures 0 < |attempts| < limit ==> attempts[|attempts| - 1].result.run.status == 0
    ensures forall i | 0 <= i < |attempts| ::
      attempts[i].backoff == if attempts[i].result.run.status == 0 then 0 else RetryBackoff
  {
    var tries: nat := 0;
    attempts := [];
    while tries < limit
      invariant |attempts| == tries
      invariant tries == 0 || tries <= limit
      invariant forall i | 0 <= i < |attempts| :: attempts[i].result == run(i)
      invariant forall i | 0 <= i < |attempts| :: attempts[i].result.run.status != 0
      invariant forall i | 0 <= i < |attempts| :: attempts[i].backoff == RetryBackoff
      decreases limit - tries
    {
      var jr := run(tries);
      if jr.run.status == 0 {
        var done := attempts + [AttemptRecord(jr, 0)];
        assert forall i | 0 <= i < |attempts| :: done[i] == attempts[i];
        attempts := done;
        return;
      }
      var next := attempts + [AttemptRecord(jr, RetryBackoff)];
      assert forall i | 0 <= i < |attempts| :: next[i] == attempts[i];
      attempts := next;
      tries := tries + 1;
    }
  }

  /** `execCommandWithRetry`: attempts `ExecCommand` until one succeeds or
      `Retries+1` attempts have been made, sleeping after every failed
      attempt. Attempt `i` starts at `env(i).at` and its process behaves as
      `env(i).outcome`. */
  method ExecCommandWithRetry(j: JobSpec, trigger: string, env: nat -> AttemptEnv)
    returns (attempts: seq<AttemptRecord>)
    // bounded by Retries+1 (with Go's wrap-around), and empty iff that bound is not positive
    ensures |attempts| <= if AttemptLimit(j.retries) < 0 then 0 else AttemptLimit(j.retries)
    ensures |attempts| == 0 <==> AttemptLimit(j.retries) <= 0
    // attempt i runs under its labelled trigger in environment i
    ensures forall i | 0 <= i < |attempts| :: attempts[i].result == Attempt(j, trigger, env, i)
    // the loop stops at the first success
    ensures forall i | 0 <= i < |attempts| - 1 :: attempts[i].result.run.status != 0
    ensures 0 < |attempts| < AttemptLimit(j.retries) ==> attempts[|attempts| - 1].result.run.status == 0
    // every failed attempt, the last one included, is followed by the back-off
    ensures forall i | 0 <= i < |attempts| ::
      attempts[i].backoff == if attempts[i].result.run.status == 0 then 0 else RetryBackoff
  {
    var run := (i: nat) => Attempt(j, trigger, env, i);
    attempts := RetryLoop(AttemptLimit(j.retries), run);
  }
}

=== FILE: legacy.dfy ===
/** The single-file scheduler of `main.go`, an earlier shape of the same
    program: jobs keep parallel lists of start times, statuses and log tails
    instead of `JobRun` records, there is no retry loop, and
    `LoadSchedule` reports validation errors instead of swallowing them. */
module Legacy {
  import opened Wrappers
  import opened Text
  import opened Process
  import Job
  import Schedule

  /** `JobSpec` of `main.go`. `linked` stands for the `globalSchedule`
      back-reference; `runs`, `statuses` and `logTails` are its bookkeeping. */
  datatype LegacyJob = LegacyJob(
    cron: string,
    command: seq<string>,
    triggers: seq<string>,
    name: string,
    linked: bool,
    runs: seq<Job.Time>,
    statuses: seq<int>,
    logTails: seq<string>)

  datatype LegacySchedule = LegacySchedule(jobs: map<string, LegacyJob>)

  const EmptyLegacySchedule: LegacySchedule := LegacySchedule(map[])

  /** Why `LoadSchedule` failed: the file could not be read or parsed, or a
      job did not validate. */
  datatype LoadError = ReadFailed(reason: string) | Invalid(cause: Schedule.ValidationError)

  /** The validation error reported for the keys still `pending`, checked
      in order. */
  function FirstError(jobs: map<string, LegacyJob>, pending: seq<string>, isValid: string -> bool)
    : (r: Option<Schedule.ValidationError>)
    requires forall k :: k in pending ==> k in jobs
    ensures r.None? <==>
      forall k :: k in pending ==> Schedule.JobOk(jobs[k].cron, jobs[k].triggers, jobs.Keys, isValid)
    ensures r.Some? && r.value.InvalidCron? ==>
      var k := r.value.job; k in jobs && jobs[k].cron != "" && !isValid(jobs[k].cron)
    ensures r.Some? && r.value.UnknownTrigger? ==>
      var k := r.value.referencedIn;
      k in jobs && r.value.missing in jobs[k].triggers && r.value.missing !in jobs
    decreases |pending|
  {
    if |pending| == 0 then None
    else
      var k := pending[0];
      assert forall x :: x in pending ==> x == k || x in pending[1..];
      match Schedule.CheckJob(k, jobs[k].cron, jobs[k].triggers, jobs.Keys, isValid)
      case Some(e) => Some(e)
      case None => FirstError(jobs, pending[1..], isValid)
  }

  /** `LoadSchedule` of `main.go`. `parsed` is what `readSpecs` produced. The
      loop of the source names each job as it goes, but the whole schedule is
      dropped on the first error, so checking first and naming afterwards
      gives the same results. */
  function LoadSchedule(parsed: Result<LegacySchedule, string>, order: seq<string>, isValid: string -> bool)
    : (r: (LegacySchedule, Option<LoadError>))
    requires parsed.Success? ==> Schedule.IsEnumeration(order, parsed.value.jobs)
    ensures parsed.Failure? ==> r == (EmptyLegacySchedule, Some(ReadFailed(parsed.error)))
    ensures r.1.Some? ==> r.0 == EmptyLegacySchedule
    ensures parsed.Success? ==> var jobs := parsed.value.jobs;
      (r.1.None? <==>
        forall k :: k in jobs ==> Schedule.JobOk(jobs[k].cron, jobs[k].triggers, jobs.Keys, isValid))
    ensures parsed.Success? && r.1.Some? ==> r.1.value.Invalid?
    // the reported error names a job that really fails the check it names
    ensures parsed.Success? && r.1.Some? ==>
      var e := r.1.value.cause; var jobs := parsed.value.jobs;
      && (e.InvalidCron? ==> e.job in jobs && jobs[e.job].cron != "" && !isValid(jobs[e.job].cron))
      && (e.UnknownTrigger? ==>
            e.referencedIn in jobs && e.missing in jobs[e.referencedIn].triggers && e.missing !in jobs)
    ensures parsed.Success? && r.1.None? ==>
      && r.0.jobs.Keys == parsed.value.jobs.Keys
      && forall k :: k in r.0.jobs ==>
           r.0.jobs[k] == parsed.value.jobs[k].(name := k, linked := true)
  {
    match parsed
    case Failure(e) => (EmptyLegacySchedule, Some(ReadFailed(e)))
    case Success(s) =>
      match FirstError(s.jobs, order, isValid)
      case Some(e) => (EmptyLegacySchedule, Some(Invalid(e)))
      case None =>
        var named := map k | k in s.jobs :: s.jobs[k].(name := k, linked := true);
        (LegacySchedule(named), None)
  }

  /** Lines as `ExecCommand` appends them to the log tail: each captured line
      (which already ends in a newline) followed by one more newline. */
  function DoubledLines(lines: seq<string>): string
  {
    if |lines| == 0 then [] else lines[0] + "\n" + DoubledLines(lines[1..])
  }

  /** The log tail `main.go` keeps for a process that ran. */
  function LegacyTail(stdout: string, stderr: string): string
  {
    DoubledLines(CompleteLines(stdout + stderr))
  }

  /** The tail of `main.go` holds the log of `pkg/job.go` plus one extra
      newline per line: every line ends in a blank line. */
  lemma {:induction false} DoubledLinesLength(lines: seq<string>)
    requires forall i | 0 <= i < |lines| :: IsTerminatedLine(lines[i])
    ensures |DoubledLines(lines)| == |Concat(lines)| + |lines|
    ensures 0 < |lines| ==> var t := DoubledLines(lines); |t| >= 2 && t[|t| - 2..] == "\n\n"
  {
    if |lines| > 0 {
      DoubledLinesLength(lines[1..]);
      var rest := DoubledLines(lines[1..]);
      var t := lines[0] + "\n" + rest;
      assert DoubledLines(lines) == t;
      if |lines| == 1 {
        assert rest == [];
        assert t[|t| - 2..] == [lines[0][|lines[0]| - 1], '\n'];
      } else {
        assert t[|t| - 2..] == rest[|rest| - 2..];
      }
    }
  }

  /** Each line followed by one newline. */
  function Suffixed(lines: seq<string>): (r: seq<string>)
    ensures |r| == |lines|
  {
    seq(|lines|, i requires 0 <= i < |lines| => lines[i] + "\n")
  }

  /** The doubled tail is the concatenation of the lines, each with one
      extra newline appended. */
  lemma {:induction false} DoubledLinesContents(lines: seq<string>)
    ensures DoubledLines(lines) == Concat(Suffixed(lines))
  {
    if |lines| > 0 {
      var s := Suffixed(lines);
      assert s[0] == lines[0] + "\n";
      assert s[1..] == Suffixed(lines[1..]);
      DoubledLinesContents(lines[1..]);
    }
  }

  /** The tail `main.go` keeps is the log `pkg/job.go` captures with one
      extra newline after every line: same lines, same order, each followed
      by a blank line. */
  lemma LegacyTailExtendsLog(stdout: string, stderr: string)
    ensures var lines := CompleteLines(stdout + stderr);
      && CapturedLog(stdout, stderr) == Concat(lines)
      && LegacyTail(stdout, stderr) == Concat(Suffixed(lines))
      && |LegacyTail(stdout, stderr)| == |CapturedLog(stdout, stderr)| + |lines|
  {
    var lines := CompleteLines(stdout + stderr);
    DoubledLinesContents(lines);
    DoubledLinesLength(lines);
  }

  /** `ExecCommand` of `main.go`: records a start time and an empty tail, then
      runs the process. The source indexes `Command[0]` unconditionally, so a
      command is required. A start failure records status -1 with the error
      text as tail (the pipes are closed then and `Wait` reports "not
      started", so nothing else is recorded); a clean exit records 0 and
      launches every trigger; an exit code is recorded as is; any other wait
      error records no status. */
  function ExecCommand(j: LegacyJob, trigger: string, now: Job.Time, outcome: Outcome)
    : (r: (LegacyJob, seq<Job.Launch>))
    requires 0 < |j.command|
    // the definition is untouched
    ensures r.0.cron == j.cron && r.0.command == j.command && r.0.triggers == j.triggers
    ensures r.0.name == j.name && r.0.linked == j.linked
    // exactly one start time and one tail per call
    ensures r.0.runs == j.runs + [now]
    ensures |r.0.logTails| == |j.logTails| + 1 && r.0.logTails[..|j.logTails|] == j.logTails
    ensures outcome.StartFailed? ==> r.0.logTails[|j.logTails|] == outcome.reason
    ensures outcome.Ran? ==> r.0.logTails[|j.logTails|] == LegacyTail(outcome.stdout, outcome.stderr)
    // at most one status per call
    ensures r.0.statuses == j.statuses || (|r.0.statuses| == |j.statuses| + 1 && r.0.statuses[..|j.statuses|] == j.statuses)
    ensures r.0.statuses == j.statuses + [0] <==> outcome.Ran? && outcome.wait.WaitOk?
    ensures outcome.StartFailed? ==> r.0.statuses == j.statuses + [Job.StatusUnset]
    ensures outcome.Ran? && outcome.wait.WaitExit? ==> r.0.statuses == j.statuses + [outcome.wait.code]
    ensures outcome.Ran? && outcome.wait.WaitFailed? ==> r.0.statuses == j.statuses
    // downstream jobs only after a clean exit
    ensures r.1 != [] ==> outcome.Ran? && outcome.wait.WaitOk?
    ensures outcome.Ran? && outcome.wait.WaitOk? ==> r.1 == Job.DownstreamLaunches(j.triggers)
  {
    var started := j.(runs := j.runs + [now], logTails := j.logTails + [""]);
    match outcome
    case StartFailed(reason) =>
      (started.(statuses := j.statuses + [Job.StatusUnset], logTails := j.logTails + [reason]), [])
    case Ran(stdout, stderr, wait) =>
      var tailed := started.(logTails := j.logTails + [LegacyTail(stdout, stderr)]);
      match wait
      case WaitExit(code) => (tailed.(statuses := j.statuses + [code]), [])
      case WaitFailed(_) => (tailed, [])
      case WaitOk => (tailed.(statuses := j.statuses + [0]), Job.DownstreamLaunches(j.triggers))
  }
}

=== FILE: process.dfy ===
/** The child process of one job attempt, reduced to what the scheduler can
    observe of it: whether it started, the text it wrote on standard output
    and standard error, and how waiting for it ended. Output capture follows
    the shape of the source: standard output is read to its end, then
    standard error, split with `ReadString('\n')`, and only the lines that
    came with their terminating newline are kept. */
module Process {
  import opened Text
  import opened Wrappers

  /** An exit code reported by `ExitError.ExitCode()`; Go only raises an
      `ExitError` for an unsuccessful exit, so the code is never zero
      (a signal-killed process reports -1). */
  type ExitCode = c: int | c != 0 witness 1

  /** How `cmd.Wait()` returned. */
  datatype WaitResult =
    | WaitOk                           // nil error: exited with status 0
    | WaitExit(code: ExitCode)         // *exec.ExitError
    | WaitFailed(reason: string)       // any other error (I/O copy, not started, ...)

  /** What the operating system did with one spawn request. */
  datatype Outcome =
    | StartFailed(reason: string)                        // cmd.Start() returned an error
    | Ran(stdout: string, stderr: string, wait: WaitResult)

  /** Position of the first newline of `s`, if any. */
  function FirstNewline(s: string): (r: Option<nat>)
    ensures r.Some? ==> r.value < |s| && s[r.value] == '\n' && '\n' !in s[..r.value]
    ensures r.None? ==> '\n' !in s
  {
    if |s| == 0 then None
    else if s[0] == '\n' then Some(0)
    else
      match FirstNewline(s[1..])
      case None => None
      case Some(i) =>
        assert s[..i + 1] == [s[0]] + s[1..][..i];
        Some(i + 1)
  }

  /** A line as `ReadString('\n')` hands it over without error: it ends with
      its newline and holds no other newline. */
  predicate IsTerminatedLine(line: string)
  {
    0 < |line| && line[|line| - 1] == '\n' && '\n' !in line[..|line| - 1]
  }

  /** The lines a `ReadString('\n')` loop over `stream` consumes while the
      error stays nil; the trailing fragment returned together with `io.EOF`
      is not among them. */
  function CompleteLines(stream: string): (lines: seq<string>)
    ensures forall i | 0 <= i < |lines| :: IsTerminatedLine(lines[i])
    ensures |Concat(lines)| <= |stream| && Concat(lines) == stream[..|Concat(lines)|]
    ensures '\n' !in stream[|Concat(lines)|..]
    decreases |stream|
  {
    match FirstNewline(stream)
    case None => []
    case Some(i) =>
      var line := stream[..i + 1];
      var rest := CompleteLines(stream[i + 1..]);
      assert line[..|line| - 1] == stream[..i];
      assert ([line] + rest)[1..] == rest;
      assert stream == line + stream[i + 1..];
      [line] + rest
  }

  /** The job log as `pkg/job.go` accumulates it: `jr.Log += line` for every
      complete line of standard output followed by standard error. */
  function CapturedLog(stdout: string, stderr: string): string
  {
    Concat(CompleteLines(stdout + stderr))
  }

  /** The captured log is exactly the merged stream up to and including its
      last newline: everything before it is kept and the unterminated tail is
      dropped. */
  lemma CapturedLogIsTerminatedPrefix(stdout: string, stderr: string)
    ensures var log := CapturedLog(stdout, stderr);
      && log <= stdout + stderr
      && (log == [] || log[|log| - 1] == '\n')
      && '\n' !in (stdout + stderr)[|log|..]
  {
    var lines := CompleteLines(stdout + stderr);
    if |lines| > 0 {
      LastOfConcat(lines);
    }
  }

  lemma {:induction false} LastOfConcat(lines: seq<string>)
    requires 0 < |lines|
    requires forall i | 0 <= i < |lines| :: IsTerminatedLine(lines[i])
    ensures var c := Concat(lines); 0 < |c| && c[|c| - 1] == '\n'
  {
    if |lines| > 1 {
      LastOfConcat(lines[1..]);
    }
  }
}

=== FILE: schedule.dfy ===
/** The schedule of `pkg/schedule.go`: decoding of the `command` field,
    validation of cron strings and trigger references, loading, and one tick
    of the scheduler loop. Cron validity and due-ness come from an external
    library and are parameters (`isValid`, `isDue`); Go's unspecified map
    iteration order is a parameter `order` listing every key once. */
module Schedule {
  import opened Wrappers
  import opened Job

  /** The YAML node a `command` field was written as. */
  datatype YamlNode =
    | Scalar(text: string)
    | Sequence(items: seq<YamlNode>)
    | Mapping(entries: seq<(YamlNode, YamlNode)>)

  predicate AllScalars(items: seq<YamlNode>)
  {
    forall i | 0 <= i < |items| :: items[i].Scalar?
  }

  /** `stringArray.UnmarshalYAML`: a list of strings is kept as it is; failing
      that, a single string becomes a one-element list (it is not split into
      words); anything else is an error. */
  function DecodeCommand(node: YamlNode): (r: Result<seq<string>, string>)
    ensures r.Success? <==> node.Scalar? || (node.Sequence? && AllScalars(node.items))
    ensures node.Scalar? ==> r == Success([node.text])
    ensures node.Sequence? && r.Success? ==>
      |r.value| == |node.items| && forall i | 0 <= i < |r.value| :: node.items[i] == Scalar(r.value[i])
  {
    if node.Sequence? && AllScalars(node.items) then
      Success(seq(|node.items|, i requires 0 <= i < |node.items| => node.items[i].text))
    else if node.Scalar? then
      Success([node.text])
    else
      Failure("cannot decode command")
  }

  /** The node a list-valued `command` is written as: partner of
      `DecodeCommand`. */
  function CommandNode(command: seq<string>): (node: YamlNode)
    ensures node.Sequence? && AllScalars(node.items) && |node.items| == |command|
  {
    Sequence(seq(|command|, i requires 0 <= i < |command| => Scalar(command[i])))
  }

  /** Writing a command as a YAML list and decoding it gives it back. */
  lemma DecodeCommandRoundTrip(command: seq<string>)
    ensures DecodeCommand(CommandNode(command)) == Success(command)
  {
    var r := DecodeCommand(CommandNode(command));
    assert r.value == command;
  }

  /** The job map of a schedule (`Schedule.Jobs`). */
  datatype Schedule = Schedule(jobs: map<string, JobSpec>)

  /** `Schedule{}`: no jobs. */
  const EmptySchedule: Schedule := Schedule(map[])

  /** Why `Validate` rejected a schedule. */
  datatype ValidationError =
    | InvalidCron(job: string)
    | UnknownTrigger(missing: string, referencedIn: string)

  function ErrorMessage(e: ValidationError): string
  {
    match e
    case InvalidCron(job) => "cron string for job '" + job + "' not valid"
    case UnknownTrigger(missing, referencedIn) =>
      "cannot find spec of job '" + missing + "' that is referenced in job '" + referencedIn + "'"
  }

  /** `order` lists every key of `jobs` exactly once, as a Go `range` does. */
  predicate IsEnumeration<V>(order: seq<string>, jobs: map<string, V>)
  {
    && (forall k | k in order :: k in jobs)
    && (forall k | k in jobs :: k in order)
    && (forall i, j | 0 <= i < j < |order| :: order[i] != order[j])
  }

  /** The checks `Validate` makes of one job: a non-empty cron string must be
      valid, and every trigger must name a job of the schedule. */
  predicate JobOk(cron: string, triggers: seq<string>, keys: set<string>, isValid: string -> bool)
  {
    && (cron != "" ==> isValid(cron))
    && forall t :: t in triggers ==> t in keys
  }

  /** The first entry of `triggers` that is not in `keys`. */
  function FirstUnknown(triggers: seq<string>, keys: set<string>): (r: Option<string>)
    ensures r.None? <==> forall t :: t in triggers ==> t in keys
    ensures r.Some? ==> r.value in triggers && r.value !in keys
    // the reported trigger is the first one that names no job
    ensures r.Some? ==> exists i | 0 <= i < |triggers| ::
      triggers[i] == r.value && forall j | 0 <= j < i :: triggers[j] in keys
  {
    if |triggers| == 0 then None
    else if triggers[0] !in keys then Some(triggers[0])
    else
      var r := FirstUnknown(triggers[1..], keys);
      assert forall t :: t in triggers ==> t == triggers[0] || t in triggers[1..];
      r
  }

  /** The error `Validate` reports for job `key`, if any: the cron string is
      checked first, then the triggers in order. */
  function CheckJob(key: string, cron: string, triggers: seq<string>, keys: set<string>,
                    isValid: string -> bool): (r: Option<ValidationError>)
    ensures r.None? <==> JobOk(cron, triggers, keys, isValid)
    ensures r.Some? && r.value.InvalidCron? ==> r.value.job == key && cron != "" && !isValid(cron)
    ensures r.Some? && r.value.UnknownTrigger? ==>
      r.value.referencedIn == key && r.value.missing in triggers && r.value.missing !in keys
    // the cron string is checked before any trigger, and the first dangling trigger is reported
    ensures cron != "" && !isValid(cron) ==> r == Some(InvalidCron(key))
    ensures r.Some? && r.value.UnknownTrigger? ==> FirstUnknown(triggers, keys) == Some(r.value.missing)
  {
    if cron != "" && !isValid(cron) then Some(InvalidCron(key))
    else
      match FirstUnknown(triggers, keys)
      case Some(t) => Some(UnknownTrigger(t, key))
      case None => None
  }

  /** The error names a job of `jobs` that really fails the check it names. */
  predicate Truthful(e: ValidationError, jobs: map<string, JobSpec>, isValid: string -> bool)
  {
    match e
    case InvalidCron(k) => k in jobs && jobs[k].cron != "" && !isValid(jobs[k].cron)
    case UnknownTrigger(t, k) => k in jobs && t in jobs[k].triggers && t !in jobs
  }

  /** Job `j` after `Validate` set its name and back-reference. */
  function Named(j: JobSpec, key: string): JobSpec
  {
    j.(name := key, linked := true)
  }

  /** The `for k, v := range s.Jobs` loop of `Validate` over the keys still
      `pending`: each job is checked and, when it passes, named after its key
      and linked to the schedule; the first failure stops the loop and leaves
      the jobs visited so far updated. */
  function ValidateLoop(jobs: map<string, JobSpec>, pending: seq<string>, isValid: string -> bool)
    : (r: (map<string, JobSpec>, Option<ValidationError>))
    requires forall k :: k in pending ==> k in jobs
    decreases |pending|
  {
    if |pending| == 0 then (jobs, None)
    else
      var k := pending[0];
      match CheckJob(k, jobs[k].cron, jobs[k].triggers, jobs.Keys, isValid)
      case Some(e) => (jobs, Some(e))
      case None => ValidateLoop(jobs[k := Named(jobs[k], k)], pending[1..], isValid)
  }

  /** What the validation loop guarantees: only names and back-references
      change, it fails exactly when a pending job fails its checks, a failure
      names a job that really fails, and on success every pending job is named
      after its key. */
  lemma {:induction false} ValidateLoopSpec(jobs: map<string, JobSpec>, pending: seq<string>, isValid: string -> bool)
    requires forall k :: k in pending ==> k in jobs
    ensures var r := ValidateLoop(jobs, pending, isValid);
      && r.0.Keys == jobs.Keys
      && (forall k :: k in jobs ==> r.0[k] == jobs[k] || r.0[k] == Named(jobs[k], k))
      && (r.1.None? <==>
          forall k :: k in pending ==> JobOk(jobs[k].cron, jobs[k].triggers, jobs.Keys, isValid))
      && (r.1.None? ==> forall k :: k in pending ==> r.0[k] == Named(jobs[k], k))
      && (r.1.Some? ==> Truthful(r.1.value, jobs, isValid))
    decreases |pending|
  {
    if |pending| > 0 {
      var k := pending[0];
      assert forall x :: x in pending ==> x == k || x in pending[1..];
      var check := CheckJob(k, jobs[k].cron, jobs[k].triggers, jobs.Keys, isValid);
      if check.None? {
        var jobs' := jobs[k := Named(jobs[k], k)];
        assert jobs'.Keys == jobs.Keys;
        ValidateLoopSpec(jobs', pending[1..], isValid);
        var r := ValidateLoop(jobs', pending[1..], isValid);
        assert ValidateLoop(jobs, pending, isValid) == r;
        forall x | x in jobs
          ensures jobs'[x] == jobs[x] || jobs'[x] == Named(jobs[x], x)
          ensures jobs'[x].cron == jobs[x].cron && jobs'[x].triggers == jobs[x].triggers
          ensures Named(jobs'[x], x) == Named(jobs[x], x)
        {
          if x == k {
            assert jobs'[x] == Named(jobs[x], x);
          } else {
            assert jobs'[x] == jobs[x];
          }
        }
        if r.1.Some? {
          assert Truthful(r.1.value, jobs', isValid);
        }
      }
    }
  }

  /** Result of `Validate`: the schedule as the loop left it, and the error. */
  datatype Validated = Validated(schedule: Schedule, err: Option<ValidationError>)

  /** `Schedule.Validate`. */
  function Validate(s: Schedule, order: seq<string>, isValid: string -> bool): (r: Validated)
    requires IsEnumeration(order, s.jobs)
    // the same jobs, with at most their name and back-reference changed
    ensures r.schedule.jobs.Keys == s.jobs.Keys
    ensures forall k :: k in s.jobs ==> r.schedule.jobs[k] == s.jobs[k] || r.schedule.jobs[k] == Named(s.jobs[k], k)
    // fails exactly when some job has a bad cron string or a dangling trigger, in any order
    ensures r.err.None? <==>
      forall k :: k in s.jobs ==> JobOk(s.jobs[k].cron, s.jobs[k].triggers, s.jobs.Keys, isValid)
    ensures r.err.Some? ==> Truthful(r.err.value, s.jobs, isValid)
    // on success every job carries its key as name and is linked
    ensures r.err.None? ==> forall k :: k in s.jobs ==>
      r.schedule.jobs[k].name == k && r.schedule.jobs[k].linked
  {
    ValidateLoopSpec(s.jobs, order, isValid);
    var (jobs, err) := ValidateLoop(s.jobs, order, isValid);
    Validated(Schedule(jobs), err)
  }

  /** Whether validation fails does not depend on the iteration order. */
  lemma ValidateOrderIndependent(s: Schedule, o1: seq<string>, o2: seq<string>, isValid: string -> bool)
    requires IsEnumeration(o1, s.jobs) && IsEnumeration(o2, s.jobs)
    ensures Validate(s, o1, isValid).err.None? <==> Validate(s, o2, isValid).err.None?
    ensures Validate(s, o1, isValid).err.None? ==> Validate(s, o1, isValid) == Validate(s, o2, isValid)
  {
    var r1 := Validate(s, o1, isValid);
    var r2 := Validate(s, o2, isValid);
    if r1.err.None? {
      assert r1.schedule.jobs == r2.schedule.jobs;
    }
  }

  /** `loadSchedule`. `parsed` is what `readSpecs` produced from the file
      (reading and YAML parsing are outside the model). A read or parse error
      is returned with an empty schedule; a validation failure is swallowed:
      the result is an empty schedule and no error. */
  function LoadSchedule(parsed: Result<Schedule, string>, order: seq<string>, isValid: string -> bool)
    : (r: (Schedule, Option<string>))
    requires parsed.Success? ==> IsEnumeration(order, parsed.value.jobs)
    ensures parsed.Failure? ==> r == (EmptySchedule, Some(parsed.error))
    ensures parsed.Success? ==> r.1 == None
    ensures r.0 != EmptySchedule ==> parsed.Success? && r.0.jobs.Keys == parsed.value.jobs.Keys
    ensures parsed.Success? && r.0.jobs != map[] ==>
      forall k :: k in r.0.jobs ==> r.0.jobs[k] == Named(parsed.value.jobs[k], k)
    ensures parsed.Success? && parsed.value.jobs != map[] ==>
      (r.0 == EmptySchedule <==>
        (exists k :: k in parsed.value.jobs &&
          !JobOk(parsed.value.jobs[k].cron, parsed.value.jobs[k].triggers, parsed.value.jobs.Keys, isValid)))
  {
    match parsed
    case Failure(e) => (EmptySchedule, Some(e))
    case Success(s) =>
      var v := Validate(s, order, isValid);
      if v.err.Some? then (EmptySchedule, None)
      else
        assert forall k :: k in s.jobs ==> v.schedule.jobs[k] == Named(s.jobs[k], k);
        (v.schedule, None)
  }

  /** As written, a schedule that fails validation loads exactly like a file
      without jobs: no jobs and no error, so the caller starts a scheduler
      with nothing to run instead of stopping. */
  lemma DanglingTriggerLoadsSilently()
    ensures var bad := Schedule(map["a" := JobSpec("", ["true"], ["b"], "", 0, false, [])]);
      && Validate(bad, ["a"], c => true).err == Some(UnknownTrigger("b", "a"))
      && LoadSchedule(Success(bad), ["a"], c => true) == LoadSchedule(Success(EmptySchedule), [], c => true)
      && LoadSchedule(Success(bad), ["a"], c => true) == (EmptySchedule, None)
  {
    var bad := Schedule(map["a" := JobSpec("", ["true"], ["b"], "", 0, false, [])]);
    assert "b" !in bad.jobs;
    assert !JobOk(bad.jobs["a"].cron, bad.jobs["a"].triggers, bad.jobs.Keys, c => true);
  }

  /** `loadSchedule` with the validation error handed back to the caller, as
      the loader of `main.go` does: a schedule loads without error exactly
      when the file was read and every job passes validation. */
  function LoadScheduleChecked(parsed: Result<Schedule, string>, order: seq<string>, isValid: string -> bool)
    : (r: (Schedule, Option<string>))
    requires parsed.Success? ==> IsEnumeration(order, parsed.value.jobs)
    ensures parsed.Failure? ==> r == (EmptySchedule, Some(parsed.error))
    ensures r.1.Some? ==> r.0 == EmptySchedule
    ensures parsed.Success? ==> var jobs := parsed.value.jobs;
      (r.1.None? <==> forall k :: k in jobs ==> JobOk(jobs[k].cron, jobs[k].triggers, jobs.Keys, isValid))
    ensures parsed.Success? && r.1.None? ==>
      && r.0.jobs.Keys == parsed.value.jobs.Keys
      && forall k :: k in r.0.jobs ==> r.0.jobs[k] == Named(parsed.value.jobs[k], k)
    ensures parsed.Success? && r.1.Some? ==>
      exists e :: Truthful(e, parsed.value.jobs, isValid) && r.1.value == ErrorMessage(e)
  {
    match parsed
    case Failure(e) => (EmptySchedule, Some(e))
    case Success(s) =>
      var v := Validate(s, order, isValid);
      match v.err
      case Some(e) =>
        assert Truthful(e, s.jobs, isValid);
        (EmptySchedule, Some(ErrorMessage(e)))
      case None =>
        assert forall k :: k in s.jobs ==> v.schedule.jobs[k] == Named(s.jobs[k], k);
        (v.schedule, None)
  }

  /** The two loaders differ only in the error of a schedule that fails
      validation: the checked one reports it, the one as written drops it. */
  lemma LoadSchedulesAgree(parsed: Result<Schedule, string>, order: seq<string>, isValid: string -> bool)
    requires parsed.Success? ==> IsEnumeration(order, parsed.value.jobs)
    ensures LoadSchedule(parsed, order, isValid).0 == LoadScheduleChecked(parsed, order, isValid).0
    ensures LoadSchedule(parsed, order, isValid) != LoadScheduleChecked(parsed, order, isValid) <==>
      parsed.Success? && Validate(parsed.value, order, isValid).err.Some?
  {
  }

  /** After successful validation, every job a successful run launches is a
      job of the schedule: the `j.globalSchedule.Jobs[tn]` lookup in
      `execCommand` never yields nil. */
  lemma LaunchesResolve(s: Schedule, order: seq<string>, isValid: string -> bool,
                        key: string, trigger: string, now: Time, outcome: Process.Outcome)
    requires IsEnumeration(order, s.jobs)
    requires Validate(s, order, isValid).err.None?
    requires key in s.jobs
    ensures var v := Validate(s, order, isValid).schedule;
      forall l :: l in ExecCommand(v.jobs[key], trigger, now, outcome).launched ==> l.job in v.jobs
  {
    var v := Validate(s, order, isValid).schedule;
    var r := ExecCommand(v.jobs[key], trigger, now, outcome);
    assert JobOk(s.jobs[key].cron, s.jobs[key].triggers, s.jobs.Keys, isValid);
    forall l | l in r.launched
      ensures l.job in v.jobs
    {
      var i :| 0 <= i < |r.launched| && r.launched[i] == l;
      assert l.job == v.jobs[key].triggers[i];
    }
  }

  /** A schedule the corrected loader accepts is closed under launches: a
      successful run of any of its jobs only starts jobs of the schedule. */
  lemma LoadedLaunchesResolve(parsed: Result<Schedule, string>, order: seq<string>, isValid: string -> bool,
                              key: string, trigger: string, now: Time, outcome: Process.Outcome)
    requires parsed.Success? ==> IsEnumeration(order, parsed.value.jobs)
    requires LoadScheduleChecked(parsed, order, isValid).1.None?
    requires key in LoadScheduleChecked(parsed, order, isValid).0.jobs
    ensures var loaded := LoadScheduleChecked(parsed, order, isValid).0;
      forall l :: l in ExecCommand(loaded.jobs[key], trigger, now, outcome).launched ==> l.job in loaded.jobs
  {
    LaunchesResolve(parsed.value, order, isValid, key, trigger, now, outcome);
  }

  /** One tick of `Schedule.Run`: every job with a non-empty cron string that
      the cron library reports due is launched with trigger "cron". */
  method Tick(s: Schedule, order: seq<string>, isDue: string -> bool) returns (launched: seq<Launch>)
    requires IsEnumeration(order, s.jobs)
    ensures forall l :: l in launched ==> l.trigger == "cron" && l.job in s.jobs
    ensures forall k :: k in s.jobs ==>
      (Launch(k, "cron") in launched <==> s.jobs[k].cron != "" && isDue(s.jobs[k].cron))
    ensures forall a, b | 0 <= a < b < |launched| :: launched[a] != launched[b]
  {
    launched := [];
    var i := 0;
    while i < |order|
      invariant 0 <= i <= |order|
      invariant forall l :: l in launched ==> l.trigger == "cron" && l.job in order[..i]
      invariant forall k :: k in order[..i] ==>
        (Launch(k, "cron") in launched <==> s.jobs[k].cron != "" && isDue(s.jobs[k].cron))
      invariant forall a, b | 0 <= a < b < |launched| :: launched[a] != launched[b]
    {
      var k := order[i];
      assert k !in order[..i];
      if s.jobs[k].cron != "" && isDue(s.jobs[k].cron) {
        launched := launched + [Launch(k, "cron")];
      }
      assert order[..i + 1] == order[..i] + [k];
      i := i + 1;
    }
    assert order[..i] == order;
  }
}

=== FILE: text.dfy ===
/** Bytes, concatenation of string lists and the decimal rendering Go's `%v`
    verb produces for integers (used in retry labels and Slack messages). */
module Text {

  /** One octet of a file or of a Go string. */
  newtype Byte = b: int | 0 <= b < 256

  /** Concatenation of a list of pieces, first piece first. */
  function Concat<T>(pieces: seq<seq<T>>): seq<T>
  {
    if |pieces| == 0 then [] else pieces[0] + Concat(pieces[1..])
  }

  predicate IsDigit(c: char)
  {
    '0' <= c <= '9'
  }

  predicate AllDigits(s: string)
  {
    forall i | 0 <= i < |s| :: IsDigit(s[i])
  }

  function DigitChar(d: nat): (c: char)
    requires d < 10
    ensures IsDigit(c)
  {
    "0123456789"[d]
  }

  /** Value of a decimal digit; any other character reads as its offset
      from '0'. */
  function DigitValue(c: char): int
  {
    c as int - '0' as int
  }

  /** Decimal rendering of a natural number, most significant digit first,
      without leading zeros. */
  function NatToString(n: nat): (s: string)
    ensures 1 <= |s|
    ensures AllDigits(s)
    ensures |s| > 1 ==> s[0] != '0'
    decreases n
  {
    if n < 10 then [DigitChar(n)] else NatToString(n / 10) + [DigitChar(n % 10)]
  }

  /** Decimal rendering of an integer as Go's `%v` prints an `int`. */
  function IntToString(i: int): (s: string)
    ensures 1 <= |s|
    ensures i < 0 <==> s[0] == '-'
  {
    if i < 0 then "-" + NatToString(-i) else NatToString(i)
  }

  /** Reads a string of decimal digits back as a number: the inverse partner
      of `NatToString`. */
  function ParseNat(s: string): int
  {
    if |s| == 0 then 0 else 10 * ParseNat(s[..|s| - 1]) + DigitValue(s[|s| - 1])
  }

  /** Reads an optionally negative decimal number back. */
  function ParseInt(s: string): int
  {
    if 0 < |s| && s[0] == '-' then 0 - ParseNat(s[1..]) else ParseNat(s)
  }

  lemma {:induction false} ParseNatToString(n: nat)
    ensures ParseNat(NatToString(n)) == n
    decreases n
  {
    if n >= 10 {
      var prefix := NatToString(n / 10);
      var s := prefix + [DigitChar(n % 10)];
      assert s[..|s| - 1] == prefix;
      ParseNatToString(n / 10);
    }
  }

  /** A negative number reads back from its rendering. */
  lemma ParseNegative(n: nat)
    requires 0 < n
    ensures ParseInt(IntToString(-(n as int))) == -(n as int)
  {
    var digits := NatToString(n);
    assert IntToString(-(n as int)) == "-" + digits;
    assert ("-" + digits)[1..] == digits;
    ParseNatToString(n);
  }

  /** The rendering of any integer reads back as that integer. */
  lemma ParseIntToString(i: int)
    ensures ParseInt(IntToString(i)) == i
  {
    if i < 0 {
      ParseNegative(-i);
    } else {
      assert IsDigit(NatToString(i)[0]);
      ParseNatToString(i);
    }
  }

  /** Different numbers never render to the same text. */
  lemma NatToStringInjective(a: nat, b: nat)
    ensures NatToString(a) == NatToString(b) ==> a == b
  {
    ParseNatToString(a);
    ParseNatToString(b);
  }
}

=== FILE: utils.dfy ===
/** The helpers of `pkg/utils.go`: reading the last lines of a job log file
    backwards, decoding them into runs, and hard-wrapping text at a width.
    Files are byte sequences; a file that cannot be opened is `None`. */
module Utils {
  import opened Wrappers
  import opened Text
  import Job

  const LF: Byte := 10
  const CR: Byte := 13

  /** Both line feed and carriage return end a line. */
  predicate IsSeparator(b: Byte)
  {
    b == LF || b == CR
  }

  /** The pieces read back newest first, joined oldest first. */
  function RevConcat(pieces: seq<seq<Byte>>): seq<Byte>
  {
    if |pieces| == 0 then [] else RevConcat(pieces[1..]) + pieces[0]
  }

  lemma {:induction false} RevConcatAppend(pieces: seq<seq<Byte>>, oldest: seq<Byte>)
    ensures RevConcat(pieces + [oldest]) == oldest + RevConcat(pieces)
  {
    if |pieces| > 0 {
      assert (pieces + [oldest])[1..] == pieces[1..] + [oldest];
      RevConcatAppend(pieces[1..], oldest);
    }
  }

  predicate EndsWithSeparator(p: seq<Byte>)
  {
    0 < |p| && IsSeparator(p[|p| - 1])
  }

  predicate IsSuffix(a: seq<Byte>, b: seq<Byte>)
  {
    |a| <= |b| && b[|b| - |a|..] == a
  }

  /** A piece of the file as `readLastLines` cuts it: not empty, and a
      separator can only be its last byte. */
  predicate IsPiece(p: seq<Byte>)
  {
    0 < |p| && forall i | 0 <= i < |p| - 1 :: !IsSeparator(p[i])
  }

  /** Prepending a byte that is not a separator keeps a piece a piece, with
      the same last byte. */
  lemma PrependToPiece(c: Byte, p: seq<Byte>)
    requires !IsSeparator(c) && IsPiece(p)
    ensures IsPiece([c] + p)
    ensures EndsWithSeparator(p) ==> EndsWithSeparator([c] + p)
  {
    var q := [c] + p;
    forall i | 0 <= i < |q| - 1
      ensures !IsSeparator(q[i])
    {
      if i > 0 {
        assert q[i] == p[i - 1];
      }
    }
  }

  /** Pieces read so far, newest first: every one is a piece, and all but
      the newest end in a separator. */
  predicate WellCut(pieces: seq<seq<Byte>>)
  {
    && (forall i | 0 <= i < |pieces| :: IsPiece(pieces[i]))
    && (forall i | 1 <= i < |pieces| :: EndsWithSeparator(pieces[i]))
  }

  /** Cutting off the line under construction keeps the pieces well cut and
      their concatenation the part of the file walked so far. */
  lemma CutLine(pieces: seq<seq<Byte>>, line: seq<Byte>, walked: seq<Byte>)
    requires WellCut(pieces) && IsPiece(line)
    requires 0 < |pieces| ==> EndsWithSeparator(line)
    requires line + RevConcat(pieces) == walked
    ensures WellCut(pieces + [line])
    ensures RevConcat(pieces + [line]) == walked
  {
    RevConcatAppend(pieces, line);
  }

  /** Why reading failed: the file could not be opened, or seeking to the
      last byte failed because the file is empty. */
  datatype ReadError = OpenFailed | SeekFailed

  /** `readLastLines`'s `([]string, error)` result. */
  datatype LinesResult = LinesResult(lines: seq<seq<Byte>>, err: Option<ReadError>)

  /** What reading the last lines of a non-empty file `data` yields: pieces
      newest first, well cut, at most `nLines` of them when that is positive,
      joined oldest first a suffix of the file, and the whole file unless the
      limit stopped the walk right after a separator. */
  predicate LastLines(lines: seq<seq<Byte>>, data: seq<Byte>, nLines: int)
  {
    && 0 < |lines| && WellCut(lines)
    && (nLines > 0 ==> |lines| <= nLines)
    && IsSuffix(RevConcat(lines), data)
    && (RevConcat(lines) != data ==>
          && |RevConcat(lines)| < |data|
          && nLines > 0 && |lines| == nLines
          && IsSeparator(data[|data| - |RevConcat(lines)| - 1]))
  }

  /** The backward walk of `readLastLines` over the bytes of an opened
      file: cuts before every line feed or carriage return except the very
      last byte and collects the pieces newest first, each with its own
      separator; with `nLines > 0` it stops once that many pieces are cut.
      Seeking before the first byte fails, which happens at once for an
      empty file. */
  method WalkBackwards(data: seq<Byte>, nLines: int) returns (r: LinesResult)
    ensures |data| == 0 ==> r == LinesResult([], Some(SeekFailed))
    ensures 0 < |data| ==> r.err.None? && 0 < |r.lines|
    ensures nLines > 0 ==> |r.lines| <= nLines
    ensures IsSuffix(RevConcat(r.lines), data)
    ensures RevConcat(r.lines) != data ==>
      && nLines > 0 && |r.lines| == nLines
      && IsSeparator(data[|data| - |RevConcat(r.lines)| - 1])
    ensures WellCut(r.lines)
  {
    var n := |data|;
    var lines: seq<seq<Byte>> := [];
    var line: seq<Byte> := [];
    var cursor := 0;
    while true
      invariant -n <= cursor <= 0
      invariant 0 < n ==> -n < cursor
      invariant line + RevConcat(lines) == data[n + cursor..]
      invariant cursor == 0 ==> lines == [] && line == []
      invariant cursor < 0 ==> IsPiece(line)
      invariant 0 < |lines| ==> EndsWithSeparator(line)
      invariant WellCut(lines)
      invariant nLines > 0 ==> |lines| < nLines
      decreases n + cursor
    {
      cursor := cursor - 1;
      if n + cursor < 0 {
        return LinesResult([], Some(SeekFailed));
      }
      var c := data[n + cursor];
      assert data[n + cursor..] == [c] + data[n + cursor + 1..];
      if cursor != -1 && IsSeparator(c) {
        CutLine(lines, line, data[n + cursor + 1..]);
        lines := lines + [line];
        if nLines > 0 && |lines| == nLines {
          return LinesResult(lines, None);
        }
        line := [];
      }
      if |line| > 0 {
        PrependToPiece(c, line);
      }
      line := [c] + line;
      if cursor == -n {
        CutLine(lines, line, data);
        lines := lines + [line];
        return LinesResult(lines, None);
      }
    }
  }


  /** `readLastLines`: a file that cannot be opened gives an error; an opened
      one is walked backwards from its last byte. */
  method ReadLastLines(file: Option<seq<Byte>>, nLines: int) returns (r: LinesResult)
    // a missing or empty file gives an error and no lines
    ensures file.None? ==> r == LinesResult([], Some(OpenFailed))
    ensures file.Some? && |file.value| == 0 ==> r == LinesResult([], Some(SeekFailed))
    ensures file.Some? && 0 < |file.value| ==> r.err.None? && 0 < |r.lines|
    // at most nLines pieces when a limit is set
    ensures nLines > 0 ==> |r.lines| <= nLines
    // the pieces, oldest first, are a suffix of the file; the whole file unless the limit stopped the walk
    ensures file.Some? ==> IsSuffix(RevConcat(r.lines), file.value)
    ensures file.Some? && RevConcat(r.lines) != file.value ==>
      && nLines > 0 && |r.lines| == nLines
      && IsSeparator(file.value[|file.value| - |RevConcat(r.lines)| - 1])
    // each piece is a line with its separator; all but the newest end in one
    ensures WellCut(r.lines)
  {
    if file.None? {
      return LinesResult([], Some(OpenFailed));
    }
    r := WalkBackwards(file.value, nLines);
  }

  /** A piece that ends `all` ends any sequence `all` is a suffix of, and
      the byte before it is the last byte of what precedes it in `all`. */
  lemma SuffixShift(front: seq<Byte>, last: seq<Byte>, data: seq<Byte>)
    requires IsSuffix(front + last, data)
    ensures IsSuffix(last, data)
    ensures 0 < |front| ==> data[|data| - |last| - 1] == front[|front| - 1]
  {
    var all := front + last;
    assert all[|all| - |last|..] == last;
    assert data[|data| - |last|..] == all[|all| - |last|..];
    if 0 < |front| {
      assert data[|data| - |last| - 1] == all[|all| - |last| - 1];
    }
  }

  /** The newest piece read back is the file's final line: it ends at the
      file's last byte, holds no separator before its own last byte, and
      either starts the file or starts right after a separator. */
  lemma NewestPieceEndsFile(pieces: seq<seq<Byte>>, data: seq<Byte>, nLines: int)
    requires LastLines(pieces, data, nLines)
    ensures IsSuffix(pieces[0], data) && IsPiece(pieces[0])
    ensures |pieces[0]| < |data| ==> IsSeparator(data[|data| - |pieces[0]| - 1])
  {
    var rest := RevConcat(pieces[1..]);
    assert RevConcat(pieces) == rest + pieces[0];
    SuffixShift(rest, pieces[0], data);
    if 1 < |pieces| {
      assert rest == RevConcat(pieces[2..]) + pieces[1];
      assert EndsWithSeparator(pieces[1]);
    }
  }

  /** Decodes every line with `decode`, skipping the ones it rejects. */
  function DecodeRuns(lines: seq<seq<Byte>>, decode: seq<Byte> -> Option<Job.JobRun>): (runs: seq<Job.JobRun>)
    ensures |runs| <= |lines|
    ensures forall x :: x in runs ==> exists l :: l in lines && decode(l) == Some(x)
  {
    if |lines| == 0 then []
    else
      var rest := DecodeRuns(lines[1..], decode);
      assert forall l :: l in lines[1..] ==> l in lines;
      match decode(lines[0])
      case Some(jr) => [jr] + rest
      case None => rest
  }

  /** Decoding keeps line order: it distributes over concatenation. */
  lemma {:induction false} DecodeRunsAppend(a: seq<seq<Byte>>, b: seq<seq<Byte>>, decode: seq<Byte> -> Option<Job.JobRun>)
    ensures DecodeRuns(a + b, decode) == DecodeRuns(a, decode) + DecodeRuns(b, decode)
  {
    if |a| > 0 {
      assert (a + b)[1..] == a[1..] + b;
      DecodeRunsAppend(a[1..], b, decode);
    } else {
      assert a + b == b;
    }
  }

  /** When every line decodes, run i is the decoding of line i. */
  lemma {:induction false} DecodeRunsTotal(lines: seq<seq<Byte>>, decode: seq<Byte> -> Option<Job.JobRun>)
    requires forall i | 0 <= i < |lines| :: decode(lines[i]).Some?
    ensures |DecodeRuns(lines, decode)| == |lines|
    ensures forall i | 0 <= i < |lines| :: DecodeRuns(lines, decode)[i] == decode(lines[i]).value
  {
    if |lines| > 0 {
      DecodeRunsTotal(lines[1..], decode);
    }
  }

  /** `readLastJobRuns`: never fails; an unreadable file gives no runs, and
      lines that do not decode are skipped. */
  method ReadLastJobRuns(file: Option<seq<Byte>>, nRuns: int, decode: seq<Byte> -> Option<Job.JobRun>)
    returns (runs: seq<Job.JobRun>, err: Option<ReadError>)
    ensures err.None?
    ensures file.None? || (file.Some? && |file.value| == 0) ==> runs == []
    ensures nRuns > 0 ==> |runs| <= nRuns
    // otherwise the runs are the decodable lines read back from the end of the file, in order
    ensures file.Some? && 0 < |file.value| ==>
      exists lines :: LastLines(lines, file.value, nRuns) && runs == DecodeRuns(lines, decode)
  {
    var read := ReadLastLines(file, nRuns);
    if read.err.Some? {
      return [], None;
    }
    runs := DecodeRuns(read.lines, decode);
    err := None;
    if file.Some? && 0 < |file.value| {
      assert LastLines(read.lines, file.value, nRuns);
    }
  }

  /** How many runs `loadRuns` keeps in memory. */
  const LoadedRuns: int := 30

  /** `loadRuns`: replaces the job's in-memory history with the last runs of
      its log file. */
  method LoadRuns(j: Job.JobSpec, file: Option<seq<Byte>>, decode: seq<Byte> -> Option<Job.JobRun>)
    returns (j': Job.JobSpec)
    ensures |j'.runs| <= LoadedRuns
    ensures j' == j.(runs := j'.runs)
    // the runs are what `readLastJobRuns` reads back with a limit of 30
    ensures file.None? || (file.Some? && |file.value| == 0) ==> j'.runs == []
    ensures file.Some? && 0 < |file.value| ==>
      exists lines :: LastLines(lines, file.value, LoadedRuns) && j'.runs == DecodeRuns(lines, decode)
  {
    var runs, _ := ReadLastJobRuns(file, LoadedRuns, decode);
    j' := j.(runs := runs);
  }

  /** Reference shape of `hardWrap` for a positive width: a newline after
      every `width`-byte chunk while more than `width` bytes remain. */
  function Wrap(s: seq<Byte>, width: int): seq<Byte>
    requires width >= 1
    decreases |s|
  {
    if |s| > width then s[..width] + [LF] + Wrap(s[width..], width) else s
  }

  /** Removes the newlines `Wrap` inserted: the inverse partner of `Wrap`. */
  function Unwrap(w: seq<Byte>, width: int): seq<Byte>
    requires width >= 1
    decreases |w|
  {
    if |w| > width + 1 then w[..width] + Unwrap(w[width + 1..], width) else w
  }

  /** Unwrapping one chunk, its newline and a non-empty rest drops that
      newline. */
  lemma UnwrapStep(head: seq<Byte>, rest: seq<Byte>, width: int)
    requires width >= 1 && |head| == width && 0 < |rest|
    ensures Unwrap(head + [LF] + rest, width) == head + Unwrap(rest, width)
  {
    var w := head + [LF] + rest;
    assert w[..width] == head;
    assert w[width + 1..] == rest;
  }

  /** Removing the inserted newlines restores the input. */
  lemma {:induction false} UnwrapWrap(s: seq<Byte>, width: int)
    requires width >= 1
    ensures Unwrap(Wrap(s, width), width) == s
    decreases |s|
  {
    if |s| > width {
      var tail := s[width..];
      assert Wrap(s, width) == s[..width] + [LF] + Wrap(tail, width);
      WrapLength(tail, width);
      UnwrapStep(s[..width], Wrap(tail, width), width);
      UnwrapWrap(tail, width);
      assert s == s[..width] + tail;
    }
  }

  /** Wrapping adds bytes only when the input is longer than the width, and
      never shortens it. */
  lemma {:induction false} WrapLength(s: seq<Byte>, width: int)
    requires width >= 1
    ensures |Wrap(s, width)| >= |s|
    ensures |Wrap(s, width)| == |s| <==> |s| <= width
    decreases |s|
  {
    if |s| > width {
      WrapLength(s[width..], width);
    }
  }

  /** The input cut into `width`-byte chunks, the last one holding the
      remaining at most `width` bytes. */
  function Chunks(s: seq<Byte>, width: int): (cs: seq<seq<Byte>>)
    requires width >= 1
    ensures 0 < |cs|
    decreases |s|
  {
    if |s| > width then [s[..width]] + Chunks(s[width..], width) else [s]
  }

  /** Chunks joined with a line feed between neighbours. */
  function JoinLines(cs: seq<seq<Byte>>): seq<Byte>
    requires 0 < |cs|
    decreases |cs|
  {
    if |cs| == 1 then cs[0] else cs[0] + [LF] + JoinLines(cs[1..])
  }

  /** The chunks cover the input in order; every chunk but the last is
      exactly `width` bytes and the last at most `width`. */
  lemma {:induction false} ChunksShape(s: seq<Byte>, width: int)
    requires width >= 1
    ensures var cs := Chunks(s, width);
      && Concat(cs) == s
      && (forall i | 0 <= i < |cs| - 1 :: |cs[i]| == width)
      && |cs[|cs| - 1]| <= width
    decreases |s|
  {
    if |s| > width {
      var rest := Chunks(s[width..], width);
      var cs := [s[..width]] + rest;
      ChunksShape(s[width..], width);
      assert cs[1..] == rest;
      assert Concat(cs) == s[..width] + Concat(rest);
      assert s == s[..width] + s[width..];
      forall i | 0 <= i < |cs| - 1
        ensures |cs[i]| == width
      {
        if i > 0 {
          assert cs[i] == rest[i - 1];
        }
      }
    } else {
      assert Concat([s]) == s + Concat<Byte>([]);
    }
  }

  /** Wrapping puts exactly one line feed between neighbouring chunks. */
  lemma {:induction false} WrapJoinsChunks(s: seq<Byte>, width: int)
    requires width >= 1
    ensures Wrap(s, width) == JoinLines(Chunks(s, width))
    decreases |s|
  {
    if |s| > width {
      var rest := Chunks(s[width..], width);
      var cs := [s[..width]] + rest;
      assert cs[1..] == rest;
      WrapJoinsChunks(s[width..], width);
    }
  }

  /** `hardWrap`: with `width < 1` the input is returned unchanged; otherwise
      the loop of the source appends chunk after chunk. */
  method HardWrap(input: seq<Byte>, width: int) returns (wrapped: seq<Byte>)
    ensures width < 1 ==> wrapped == input
    ensures width >= 1 ==> wrapped == Wrap(input, width)
    ensures width >= 1 ==> Unwrap(wrapped, width) == input
  {
    if width < 1 {
      return input;
    }
    wrapped := [];
    var i := 0;
    while |input| - i > width
      invariant 0 <= i <= |input|
      invariant wrapped + Wrap(input[i..], width) == Wrap(input, width)
      decreases |input| - i
    {
      var chunk := input[i..i + width];
      assert input[i..][..width] == chunk;
      assert input[i..][width..] == input[i + width..];
      wrapped := wrapped + chunk + [LF];
      i := i + width;
    }
    wrapped := wrapped + input[i..];
    UnwrapWrap(input, width);
  }
}

=== FILE: webhook.dfy ===
/** `JobRunWebhookCall` of `pkg/webhook.go`: choose and render the JSON body
    for a finished run, POST it, and hand back the response body. The JSON
    encoder and the HTTP round trip are parameters; this file is written
    against a `JobRun` whose status is a pointer, hence `Option<int>`. */
module Webhook {
  import opened Wrappers
  import opened Text
  import Job

  /** The `JobRun` shape `webhook.go` dereferences: a nil-able status. */
  datatype HookRun = HookRun(
    status: Option<int>,
    log: string,
    name: string,
    triggeredAt: Job.Time,
    triggeredBy: string,
    triggered: seq<string>)

  /** The value handed to the JSON encoder. */
  datatype Payload =
    | SlackPayload(text: string)   // slackPayload{Text: ...}
    | RunPayload(run: HookRun)     // the run itself

  /** What the HTTP round trip did: `http.Post` failed, reading the response
      body failed, or the body was read. */
  datatype PostResult = PostFailed(reason: string) | ReadFailed(reason: string) | Responded(body: seq<Byte>)

  const SlackType: string := "slack"

  /** `fmt.Sprintf("%s (exitcode %v):\n%s", jr.Name, *jr.Status, jr.Log)`. */
  function SlackText(jr: HookRun): string
    requires jr.status.Some?
  {
    jr.name + " (exitcode " + IntToString(jr.status.value) + "):\n" + jr.log
  }

  /** `t` reads back, field by field, as the Slack text of `jr`: the name,
      " (exitcode ", the status in decimal (which reads back as the status),
      "):" and a newline, and the log. */
  predicate ReadsAsSlackText(t: string, jr: HookRun)
  {
    var from := |jr.name| + |" (exitcode "|;
    var to := |t| - |"):\n"| - |jr.log|;
    && jr.status.Some?
    && from <= to
    && t[..|jr.name|] == jr.name
    && t[|jr.name|..from] == " (exitcode "
    && t[from..to] == IntToString(jr.status.value)
    && ParseInt(t[from..to]) == jr.status.value
    && t[to..|t| - |jr.log|] == "):\n"
    && t[|t| - |jr.log|..] == jr.log
  }

  /** The status field sits between the name and the log and reads back as
      the run's status: nothing is lost in the Slack message. */
  lemma SlackTextRecoversStatus(jr: HookRun)
    requires jr.status.Some?
    ensures ReadsAsSlackText(SlackText(jr), jr)
  {
    var t := SlackText(jr);
    var code := IntToString(jr.status.value);
    var digitsFrom := |jr.name| + |" (exitcode "|;
    assert t == jr.name + " (exitcode " + code + "):\n" + jr.log;
    assert t[digitsFrom..digitsFrom + |code|] == code;
    ParseIntToString(jr.status.value);
  }

  /** The body chosen for the webhook type: Slack gets a single text field
      naming the job, its exit code and its log; every other type gets the
      run itself. The Slack branch dereferences the status. */
  function RenderPayload(jr: HookRun, webhookType: string): (p: Payload)
    requires webhookType == SlackType ==> jr.status.Some?
    ensures p.SlackPayload? <==> webhookType == SlackType
    ensures p.RunPayload? ==> p.run == jr
    ensures p.SlackPayload? ==> ReadsAsSlackText(p.text, jr)
  {
    if webhookType == SlackType then
      SlackTextRecoversStatus(jr);
      SlackPayload(SlackText(jr))
    else RunPayload(jr)
  }

  /** `JobRunWebhookCall`: every failure (encoding, POST, reading the body)
      gives an empty byte slice with the error; success gives exactly the
      response body and no error. */
  function WebhookCall(jr: HookRun, webhookURL: string, webhookType: string,
                       encode: Payload -> Result<seq<Byte>, string>,
                       post: (string, seq<Byte>) -> PostResult)
    : (r: (seq<Byte>, Option<string>))
    requires webhookType == SlackType ==> jr.status.Some?
    ensures r.1.Some? ==> r.0 == []
    ensures var body := encode(RenderPayload(jr, webhookType));
      r.1.None? <==> body.Success? && post(webhookURL, body.value).Responded?
    ensures var body := encode(RenderPayload(jr, webhookType));
      r.1.None? ==> r.0 == post(webhookURL, body.value).body
    // each failure reports the failing step's own error
    ensures var body := encode(RenderPayload(jr, webhookType));
      body.Failure? ==> r == ([], Some(body.error))
    ensures var body := encode(RenderPayload(jr, webhookType));
      body.Success? && !post(webhookURL, body.value).Responded? ==>
        r == ([], Some(post(webhookURL, body.value).reason))
  {
    match encode(RenderPayload(jr, webhookType))
    case Failure(e) => ([], Some(e))
    case Success(body) =>
      match post(webhookURL, body)
      case PostFailed(e) => ([], Some(e))
      case ReadFailed(e) => ([], Some(e))
      case Responded(resp) => (resp, None)
  }
}

=== FILE: wrappers.dfy ===
/** Failure-carrying values used across the model: Go's `(value, error)`
    pairs and nil-able pointers become these. */
module Wrappers {

  /** A value that may be absent (a nil pointer or a nil error in Go). */
  datatype Option<+T> = None | Some(value: T)

  /** A value or the error that prevented computing it. */
  datatype Result<+T, +E> = Success(value: T) | Failure(error: E)
}
